=== FILE: README.md ===
# Signalling registry of an RTC relay server, in Dafny

The server brokers WebRTC sessions: it relays offers, answers and ICE
candidates between the members of a room, and keeps three in-memory maps in
`src/roomManagement.ts`:

- `userToSocket`: user id to the connection id of that user's latest join;
- `roomToUsers`: room id to the set of member user ids;
- `userToTrack`: room id to a map from user id to the list of track ids that
  user has published in the room.

Nine operations read and change these maps and emit socket events. This
project models them as pure transitions `(State, arguments) -> Transition(next,
emitted)`, where an emitted `Event` has a target (`ToSelf`, the calling
connection, or `ToOthersInRoom(room)`, everyone else in the room's transport
group), an event name and a payload.

JavaScript `Map`s and `Set`s iterate in insertion order, and two results depend
on that order (`getRoomUsers` lists the set as an array; the track-owner lookup
returns the last match). So every map is an association sequence
(`OrderedMap`): `Put` is `Map.set`, keeping an existing key in place and
appending a fresh one, and `Remove` is `Map.delete`. A set is a sequence
without duplicates (`OrderedSet`): `Add` is `Set.add`, and `Without` is both
`Set.delete` and `filter(x => x !== v)`.

Modules:

- `Wrappers`: `Option`.
- `OrderedSet`, `OrderedMap`: the insertion-ordered collections and their laws
  (set twice, set to the current value, delete a fresh key, append a fresh key).
- `Registry`: the state, events, accessors (`Members`, `UserTracks`,
  `TracksOf`) and the well-formedness predicate `Wf`.
- `Relay`: the nine operations. `rtcOffer`, `rtcAnswer` and `iceCandidate`
  share one policy and are one function, `RelayHandshake`, with a `Handshake`
  kind that selects the event name.
- `Dispatch`: inbound messages routed to the operations as
  `src/connectionHandlers.ts` does. `Run` handles a sequence of messages.
  Its lemmas state what holds of every reachable registry.
- `Properties`: statements about several calls. These cover idempotence,
  round trips, and the places where the code does not undo itself.

Behaviour kept exactly as the code has it:

- A handshake relay to an unknown room creates an empty member set and drops
  the message. A registered room can therefore have no members, so "every room
  has a member" is not an invariant (`Properties.FirstOfferDropped`).
- `trackRemoved` deletes a one-element list whichever track id it is given.
  It announces `track-removed` whenever the (room, user) entry exists, even if
  the track was not in the list. Removing the same track twice is therefore
  not idempotent: `[t, x]` becomes `[x]` and then nothing
  (`Properties.TrackRemovedTwice`). A second removal after the entry is gone
  emits nothing (`Properties.TrackRemovedAfterDelete`).
- The five handshake and track operations reject an empty room id. Join,
  leave, `getRoomUsers` and the owner lookup do not. In a reachable registry
  the unguarded lookup still finds nothing under the empty room id
  (`Dispatch.BlankRoomLookupSilent`).
- The owner lookup returns the last match in iteration order. An owner equal
  to the empty string is falsy and suppresses the event.
- Track operations never consult or change membership. Membership operations
  never touch the track registry (`Dispatch.TrackRunsKeepMembership`,
  `Dispatch.MembershipRunsKeepTracks`).

The transport's `join` and `leave` calls are reduced to a boolean parameter,
`joinOk` or `leaveOk`. When it is false, the `catch` path leaves the state
unchanged and emits nothing. A false `joinOk` is an awaited join that
failed. A false `leaveOk` is a leave that throws synchronously, because
`socket.leave` is not awaited.

## Model

| member | source | states |
|---|---|---|
| OrderedSet.Add | src/roomManagement.ts:157 | `Set.add`: the result holds exactly the old elements plus the new one. The old order is a prefix of the result. A present element is a no-op. Duplicate-freedom is preserved. |
| OrderedSet.Without | src/roomManagement.ts:179 | `Set.delete` / `filter`: the result holds exactly the elements other than `x`. It is an order-preserving subsequence of the input. An absent `x` is a no-op. Duplicate-freedom is kept, and for a duplicate-free input the result is one element shorter when `x` was present. |
| OrderedSet.WithoutCounts | src/roomManagement.ts:110 | Every element other than `x` keeps its number of occurrences and `x` has none. With the subsequence clause this pins `filter` exactly, duplicates included. |
| OrderedSet.WithoutAppended | src/roomManagement.ts:108-111 | Filtering out an element that was just appended gives back the original list. |
| OrderedMap.Get | src/roomManagement.ts:5-11 | `Map.get` finds a value iff the key is among the keys, and that value belongs to an entry of the map. |
| OrderedMap.GetUnique | src/roomManagement.ts:5-11 | In a map with distinct keys, any entry with key `k` is the one `Map.get` returns. |
| OrderedMap.Put | src/roomManagement.ts:5-11 | `Map.set`: the key maps to the new value and every other key keeps its value. An existing key keeps its position; a fresh key is appended to the key order. Distinct keys are preserved, and no entry is invented. |
| OrderedMap.PutFresh | src/roomManagement.ts:73 | Setting a fresh key appends exactly one entry at the end. |
| OrderedMap.Remove | src/roomManagement.ts:181 | `Map.delete`: the key is gone, other keys keep their values, and the key order is the old order without the key. Distinct keys are preserved. |
| OrderedMap.PutPut | src/roomManagement.ts:82 | Setting a key twice equals setting it once to the second value. |
| OrderedMap.PutCurrent | src/roomManagement.ts:82 | Setting a key to its current value changes nothing, including the order. |
| OrderedMap.RemovePutFresh | src/roomManagement.ts:181 | Deleting a freshly added key restores the map. |
| Relay.RelayHandshake | src/roomManagement.ts:13-57 | An empty room id is a no-op. For an unknown room, an empty member set is appended and nothing is emitted. For a known room, the state is unchanged and exactly one event with the payload passed through goes to the others in the room. Connections and tracks are never touched, and well-formedness is kept. |
| Relay.TrackAdded | src/roomManagement.ts:59-84 | An empty room id or an already listed track is a no-op. Otherwise the track is appended to the (room, user) list. A user who already had a list keeps their place in the room's track map, and a new publisher goes last. A room's new track map is appended to the room order. One `track-added {trackID, userUUID}` goes to the others. Every other (room, user) list is unchanged, every other room's track map is unchanged as a whole (order included), membership is untouched, and well-formedness is kept. |
| Relay.FileTracksFacts | src/roomManagement.ts:76-82 | Storing a list for (room, user) sets that list and leaves every other pair's list alone. |
| Relay.FileTracksOther | src/roomManagement.ts:82 | One other (room, user) pair keeps its list when a list is stored for (room, user). |
| Relay.FileTracksNeighbour | src/roomManagement.ts:82 | Another user's list in the same room is untouched when a list is stored for (room, user). |
| Relay.FileTracksOrder | src/roomManagement.ts:82 | Storing keeps the user's place in the room's track map, or appends the user if they had no list. |
| Relay.FileTracksRooms | src/roomManagement.ts:72-82 | Storing appends the room's track map to the room order if the room had none, and leaves every other room's track map unchanged as a whole. |
| Relay.FileTracksWf | src/roomManagement.ts:72-82 | Storing a non-empty duplicate-free list keeps the registry well formed. |
| Relay.DropTracksFacts | src/roomManagement.ts:105-106 | Deleting the (room, user) entry leaves every other pair's list alone, drops the user from the room's track-map order, and leaves every other room's track map unchanged as a whole. The room's track map stays, even when empty. Well-formedness is kept. |
| Relay.TrackRemoved | src/roomManagement.ts:86-115 | An empty room id or a missing room/user entry is a no-op with no event. Otherwise a one-element list is deleted whichever track is named, and the user drops out of the room's track-map order. A longer list is filtered, and the user keeps their place. One `track-removed` is always emitted. Afterwards the track is absent, no track is gained, other pairs are unchanged, every other room's track map is unchanged as a whole (order included), the room key order is unchanged, and well-formedness is kept. |
| Relay.LastOwner | src/roomManagement.ts:124-130 | Returns nothing iff no list holds the track. It returns `u` iff `u` is the last entry in iteration order whose list holds the track (the reference definition `IsLastOwner`). |
| Relay.LastOwnerStep | src/roomManagement.ts:126-130 | How the last-owner definition changes when the final entry is split off. |
| Relay.ScanOwner | src/roomManagement.ts:124-130 | The source's forward loop, which overwrites the candidate on every match, ends with exactly the reference last owner, or with nothing iff no list holds the track. |
| Relay.GetUserUUIDByTrackID | src/roomManagement.ts:117-139 | Read-only. It emits nothing when the room has no track map or no list holds the track. Otherwise it emits one `user-uuid-by-track-id` naming the last owner to the others, unless that owner is the empty string. |
| Relay.AddUserToRoom | src/roomManagement.ts:141-170 | An existing member or a failed transport join is a no-op. Otherwise the user is appended to the member set (creating the room at the end of the room order if needed). The user's connection id is recorded, and `member-joined` goes to the caller and then to the others. Nothing else changes, and well-formedness is kept. |
| Relay.JoinFacts | src/roomManagement.ts:154-158 | A join for a non-member appends the user to the room's member set, creating the room at the end of the room order if it was unknown. It records the user's connection id and changes no other room or user. |
| Relay.RemoveUserFromRoom | src/roomManagement.ts:172-198 | A failed transport leave is a no-op. Otherwise the member set becomes the old one with the user filtered out, the rest in their order. The room entry survives iff someone else was in it, and the user's connection id is deleted. `self-left {success: true}` goes to the caller and `member-left` to the others, member or not. Well-formedness is kept. |
| Relay.WithoutEmpty | src/roomManagement.ts:179-182 | Deleting the user empties the member set iff no one else was in it. |
| Relay.GetRoomUsers | src/roomManagement.ts:200-211 | Read-only. Exactly one `room-users` event goes to the caller. It lists the room's members in the set's insertion order (`Array.from`), which has no duplicates in a well-formed registry. An unknown room gives an empty list. |
| Dispatch.Step | src/connectionHandlers.ts:24-63 | The contract states frames only: the two queries change nothing, track messages leave the member sets and connection ids alone, and handshake and membership messages leave the track registry alone. The message's `target` field carries the room for answers and candidates. |
| Dispatch.StepRoutesHandshakes | src/connectionHandlers.ts:26-36 | An offer, answer or ICE candidate naming a known, non-empty room is relayed unchanged to the room's other members, under `rtc-offer`, `rtc-answer` or `ice-candidate` respectively, and changes no state. |
| Dispatch.StepPreservesInv | src/connectionHandlers.ts:24-63 | Every inbound message keeps the registry well formed and keeps the empty room id out of the track registry. |
| Dispatch.RunPreservesInv | src/connectionHandlers.ts:24-63 | Every sequence of messages keeps that invariant. |
| Dispatch.ReachableInv | src/roomManagement.ts:4-11 | Every registry reachable from the empty maps at start-up satisfies the invariant. |
| Dispatch.TrackRunsKeepMembership | src/roomManagement.ts:59-139 | A run of track messages leaves the member sets and connection ids unchanged. |
| Dispatch.MembershipRunsKeepTracks | src/roomManagement.ts:13-57 | A run of handshake and membership messages leaves the track registry unchanged. |
| Dispatch.BlankRoomLookupSilent | src/roomManagement.ts:117-122 | In a reachable registry the owner lookup under the empty room id emits nothing. |
| Properties.JoinIdempotent | src/roomManagement.ts:147-150 | A second join of the same user to the same room changes nothing and emits nothing, whatever its connection or transport outcome. |
| Properties.SoleMemberLeaves | src/roomManagement.ts:177-183 | When the only member leaves, the room entry is gone, and `getRoomUsers` then sends an empty list. |
| Properties.RoomUsersAfterJoin | src/roomManagement.ts:154-157 | After a newcomer joins, `getRoomUsers` sends the earlier member list followed by the newcomer. |
| Properties.RoomUsersAfterLeave | src/roomManagement.ts:177-183 | After a leave, `getRoomUsers` sends the earlier member list with the user filtered out, the rest in joining order. |
| Properties.JoinLeaveRoundTrip | src/roomManagement.ts:141-198 | Leaving undoes joining exactly, when the user had no connection entry and the room was unknown or had other members. |
| Properties.DropAppendedMember | src/roomManagement.ts:177-183 | The member-set half of that round trip. |
| Properties.JoinLeaveDropsEmptyRoom | src/roomManagement.ts:178-182 | A room created empty by a handshake relay is deleted by a join followed by a leave, so leave does not always undo join. |
| Properties.TrackOpsKeepOtherLookups | src/roomManagement.ts:72-137 | Adding or removing a track in one room leaves the owner lookup in every other room unchanged. |
| Properties.TrackAddedTwice | src/roomManagement.ts:76-83 | Adding a track twice stores it once and announces it once. |
| Properties.TrackAddRemoveRoundTrip | src/roomManagement.ts:59-115 | Removing a freshly added track restores the user's list. It restores the whole registry when the user already had tracks in the room. |
| Properties.FileTracksTwice | src/roomManagement.ts:82 | Storing two lists in a row for the same pair equals storing the second. |
| Properties.FileTracksCurrent | src/roomManagement.ts:82 | Storing a pair's current list changes nothing. |
| Properties.TrackRemovedSingleton | src/roomManagement.ts:105-106 | A one-element list is deleted and `track-removed` is emitted, even when the named track is a different one. |
| Properties.TrackRemovedTwice | src/roomManagement.ts:103-114 | From `[t, x]`, removing `t` twice leaves `[x]` and then nothing; both calls announce `t`. |
| Properties.TrackRemovedAfterDelete | src/roomManagement.ts:99-101 | Once a pair's only list is deleted, a second removal emits nothing and changes nothing. |
| Properties.FirstOfferDropped | src/roomManagement.ts:20-21 | The first offer to a fresh room is not relayed. It leaves a registered room with no members. |
| Properties.OfferAfterTwoJoins | src/roomManagement.ts:20-23 | For any room with no members and two distinct newcomers, after both join the member list is the two in joining order, and an offer to the room goes to the others unchanged. |
| Properties.OfferAfterJoins | src/roomManagement.ts:20-23 | After A and B join R1, the member order is [A, B], and A's offer goes to the others in R1 unchanged. |
| Properties.NewPublisherLast | src/roomManagement.ts:72-82 | A user's first track in a room appends that user at the end of the room's track map, which is created if needed. |
| Properties.TrackOwnerCollision | src/roomManagement.ts:126-137 | In a room with no track map, when A and then B publish the same track id, the lookup names B. In general the lookup names the last owner in the room's track-map order, not the latest publisher. |
| Properties.LaterOwnerWins | src/roomManagement.ts:126-137 | With track map `[(A, [t]), (B, [t])]` and a non-empty B, the lookup emits B as the owner. |

## Left out

- `src/index.ts`: HTTP server, socket.io construction, CORS and port binding are process bootstrap with no registry logic.
- Logging (`Logger.info`, `Logger.error`) has no effect on state or events.
- The `disconnect` handler of `src/connectionHandlers.ts` only logs. Its other handlers are modelled by `Dispatch.Step`.
- The `await socket.join` suspension, and other messages interleaved during it, are concurrency. The join is modelled as atomic.
- The socket.io transport is reduced to emitted-event records and a success flag for `join`/`leave`. Which connections actually receive a room broadcast is not modelled.
- Relay.RelayHandshake, Relay.TrackAdded, Relay.TrackRemoved: only the empty string is modelled as a missing room id for the `!roomUUID` guards (src/roomManagement.ts:15, 30, 46, 67, 94). A wire value of `undefined` or `null`, also falsy in the source, has no counterpart because room ids are strings here.
- Relay.AddUserToRoom: only a failing transport join is modelled as the `catch` path. An exception thrown by `emit` after the maps were updated is not modelled.
- Relay.RemoveUserFromRoom: only a leave that throws synchronously is modelled as the `catch` path. `socket.leave` is not awaited, so a rejected promise would not reach the `catch`: the map updates and both events would still happen. An exception thrown after the maps were updated is not modelled.
- Relay.GetRoomUsers: its `try`/`catch` only covers a failing `emit`, which is not modelled.
- Offer, answer and candidate payloads are opaque strings, passed through uninterpreted.

=== FILE: dispatch.dfy ===
/** Inbound messages of one connection, routed to the operations, and runs of
    such messages from the empty registry. */
module Dispatch {
  import opened OrderedMap
  import opened Registry
  import Relay

  /** One inbound message, by its event name. The transport outcome of a
      join or leave travels with the message. */
  datatype Command =
    | RtcOffer(offer: string, roomUUID: RoomId)
    | RtcAnswer(answer: string, target: RoomId)
    | IceCandidate(candidate: string, target: RoomId)
    | JoinRoom(roomUUID: RoomId, userUUID: UserId, joinOk: bool)
    | LeaveRoom(roomUUID: RoomId, userUUID: UserId, leaveOk: bool)
    | GetRoomUsers(roomUUID: RoomId)
    | AddUserTrackId(roomUUID: RoomId, userUUID: UserId, trackID: TrackId)
    | RemoveUserTrackId(roomUUID: RoomId, userUUID: UserId, trackID: TrackId)
    | GetUserUUIDByTrackId(roomUUID: RoomId, trackID: TrackId)

  /** A message together with the connection it arrived on. */
  datatype Request = Request(socket: SocketId, command: Command)

  /** Handles one message by routing it to its operation. Queries change
      nothing, track messages leave membership alone, and membership and
      handshake messages leave the track registry alone. */
  function Step(s: State, req: Request): (t: Transition)
    ensures req.command.GetRoomUsers? || req.command.GetUserUUIDByTrackId? ==> t.next == s
    ensures IsTrackCommand(req.command) ==>
      t.next.roomToUsers == s.roomToUsers && t.next.userToSocket == s.userToSocket
    ensures IsMembershipCommand(req.command) ==> t.next.userToTrack == s.userToTrack
  {
    match req.command
    case RtcOffer(offer, room) => Relay.RelayHandshake(s, Relay.Offer, offer, room)
    case RtcAnswer(answer, room) => Relay.RelayHandshake(s, Relay.Answer, answer, room)
    case IceCandidate(candidate, room) => Relay.RelayHandshake(s, Relay.Candidate, candidate, room)
    case JoinRoom(room, user, ok) => Relay.AddUserToRoom(s, req.socket, room, user, ok)
    case LeaveRoom(room, user, ok) => Relay.RemoveUserFromRoom(s, room, user, ok)
    case GetRoomUsers(room) => Relay.GetRoomUsers(s, room)
    case AddUserTrackId(room, user, track) => Relay.TrackAdded(s, room, user, track)
    case RemoveUserTrackId(room, user, track) => Relay.TrackRemoved(s, room, user, track)
    case GetUserUUIDByTrackId(room, track) => Relay.GetUserUUIDByTrackID(s, room, track)
  }

  /** Each handshake message reaches the other members of the room it
      names under its own event name, with its payload unchanged. */
  lemma StepRoutesHandshakes(s: State, req: Request, room: RoomId)
    requires room != "" && HasRoom(s, room)
    ensures req.command.RtcOffer? && req.command.roomUUID == room ==>
      Step(s, req) == Transition(s, [Event(ToOthersInRoom(room), "rtc-offer", Opaque(req.command.offer))])
    ensures req.command.RtcAnswer? && req.command.target == room ==>
      Step(s, req) == Transition(s, [Event(ToOthersInRoom(room), "rtc-answer", Opaque(req.command.answer))])
    ensures req.command.IceCandidate? && req.command.target == room ==>
      Step(s, req) == Transition(s, [Event(ToOthersInRoom(room), "ice-candidate", Opaque(req.command.candidate))])
  {
  }

  /** Handles the messages one after the other, as the single-threaded event
      loop does. */
  function Run(s: State, reqs: seq<Request>): State
    decreases |reqs|
  {
    if |reqs| == 0 then s else Run(Step(s, reqs[0]).next, reqs[1..])
  }

  /** What holds of every reachable registry: it is well formed, and no
      track map is ever filed under the empty room id (both track
      operations refuse it). */
  predicate Inv(s: State) {
    Wf(s) && "" !in Keys(s.userToTrack)
  }

  /** Every message keeps the invariant. */
  lemma StepPreservesInv(s: State, req: Request)
    requires Inv(s)
    ensures Inv(Step(s, req).next)
  {
    if IsTrackCommand(req.command) {
      TrackStepInv(s, req);
    } else {
      MembershipStepInv(s, req);
    }
  }

  lemma TrackStepInv(s: State, req: Request)
    requires Inv(s) && IsTrackCommand(req.command)
    ensures Inv(Step(s, req).next)
  {
  }

  lemma MembershipStepInv(s: State, req: Request)
    requires Inv(s) && IsMembershipCommand(req.command)
    ensures Inv(Step(s, req).next)
  {
  }

  /** Every run keeps the invariant. */
  lemma {:induction false} RunPreservesInv(s: State, reqs: seq<Request>)
    requires Inv(s)
    ensures Inv(Run(s, reqs))
    decreases |reqs|
  {
    if |reqs| > 0 {
      StepPreservesInv(s, reqs[0]);
      RunPreservesInv(Step(s, reqs[0]).next, reqs[1..]);
    }
  }

  /** Every registry reachable from process start satisfies the invariant. */
  lemma ReachableInv(reqs: seq<Request>)
    ensures Inv(Run(Initial, reqs))
  {
    assert Inv(Initial);
    RunPreservesInv(Initial, reqs);
  }

  /** A message that touches only the track registry leaves membership and
      connection ids alone. */
  predicate IsTrackCommand(c: Command) {
    c.AddUserTrackId? || c.RemoveUserTrackId? || c.GetUserUUIDByTrackId?
  }

  lemma {:induction false} TrackRunsKeepMembership(s: State, reqs: seq<Request>)
    requires forall i :: 0 <= i < |reqs| ==> IsTrackCommand(reqs[i].command)
    ensures Run(s, reqs).roomToUsers == s.roomToUsers
    ensures Run(s, reqs).userToSocket == s.userToSocket
    decreases |reqs|
  {
    if |reqs| > 0 {
      TrackRunsKeepMembership(Step(s, reqs[0]).next, reqs[1..]);
    }
  }

  /** A message that touches only membership leaves the track registry alone. */
  predicate IsMembershipCommand(c: Command) {
    c.RtcOffer? || c.RtcAnswer? || c.IceCandidate? || c.JoinRoom? || c.LeaveRoom? || c.GetRoomUsers?
  }

  lemma {:induction false} MembershipRunsKeepTracks(s: State, reqs: seq<Request>)
    requires forall i :: 0 <= i < |reqs| ==> IsMembershipCommand(reqs[i].command)
    ensures Run(s, reqs).userToTrack == s.userToTrack
    decreases |reqs|
  {
    if |reqs| > 0 {
      MembershipRunsKeepTracks(Step(s, reqs[0]).next, reqs[1..]);
    }
  }

  /** The owner lookup does not check for an empty room id, but in a
      reachable registry it has nothing to find there. */
  lemma BlankRoomLookupSilent(s: State, track: TrackId)
    requires Inv(s)
    ensures Relay.GetUserUUIDByTrackID(s, "", track) == NoOp(s)
  {
  }
}

=== FILE: ordered_map.dfy ===
/** A JavaScript `Map` as the sequence of its entries in insertion order.
    `Put` is `Map.prototype.set`: an existing key keeps its place and gets the
    new value, a fresh key goes to the end. `Remove` is `Map.prototype.delete`.
    A lookup finds the first entry with the key; in a well-formed map there is
    only one. */
module OrderedMap {
  import opened Wrappers
  import opened OrderedSet

  /** The keys in iteration order. */
  function Keys<K, V>(m: seq<(K, V)>): (ks: seq<K>)
    ensures |ks| == |m|
  {
    if |m| == 0 then [] else [m[0].0] + Keys(m[1..])
  }

  /** The key at a position is the key of the entry at that position. */
  lemma {:induction false} KeysAt<K, V>(m: seq<(K, V)>, i: int)
    requires 0 <= i < |m|
    ensures Keys(m)[i] == m[i].0
  {
    if i > 0 {
      KeysAt(m[1..], i - 1);
    }
  }

  /** The keys of an entry followed by more entries. */
  lemma KeysCons<K, V>(e: (K, V), m: seq<(K, V)>)
    ensures Keys([e] + m) == [e.0] + Keys(m)
  {
    assert ([e] + m)[1..] == m;
  }

  /** Looking up in an entry followed by more entries. */
  lemma GetCons<K, V>(e: (K, V), m: seq<(K, V)>, k: K)
    ensures Get([e] + m, k) == if e.0 == k then Some(e.1) else Get(m, k)
  {
    assert ([e] + m)[1..] == m;
  }

  /** Every key occurs once, as in a real `Map`. */
  predicate DistinctKeys<K(==), V>(m: seq<(K, V)>) {
    NoDup(Keys(m))
  }

  /** `Map.prototype.get`, with `None` for `undefined`. */
  function Get<K(==), V>(m: seq<(K, V)>, k: K): (r: Option<V>)
    ensures r.Some? <==> k in Keys(m)
    ensures r.Some? ==> (k, r.value) in m
  {
    if |m| == 0 then None
    else if m[0].0 == k then Some(m[0].1)
    else Get(m[1..], k)
  }

  /** In a well-formed map the entry with key `k` is the one `Get` finds. */
  lemma {:induction false} GetUnique<K, V>(m: seq<(K, V)>, k: K, v: V)
    requires DistinctKeys(m) && (k, v) in m
    ensures Get(m, k) == Some(v)
  {
    if m[0] != (k, v) {
      assert (k, v) in m[1..];
      assert m[0].0 != k by {
        var i :| 0 <= i < |m| && m[i] == (k, v);
        KeysAt(m, 0);
        KeysAt(m, i);
      }
      assert DistinctKeys(m[1..]) by {
        assert Keys(m[1..]) == Keys(m)[1..];
      }
      GetUnique(m[1..], k, v);
    }
  }

  /** `Map.prototype.set`. */
  function Put<K(==,!new), V(!new)>(m: seq<(K, V)>, k: K, v: V): (r: seq<(K, V)>)
    ensures Get(r, k) == Some(v)
    ensures forall k' {:trigger Get(r, k')} :: k' != k ==> Get(r, k') == Get(m, k')
    ensures Keys(r) == if k in Keys(m) then Keys(m) else Keys(m) + [k]
    ensures DistinctKeys(m) ==> DistinctKeys(r)
    ensures forall p :: p in r ==> p in m || p == (k, v)
  {
    if |m| == 0 then [(k, v)]
    else if m[0].0 == k then
      PutHere(m, k, v);
      [(k, v)] + m[1..]
    else
      var rest := Put(m[1..], k, v);
      PutFurther(m, k, v, rest);
      [m[0]] + rest
  }

  /** `Put` when the first entry has the key. */
  lemma PutHere<K(!new), V(!new)>(m: seq<(K, V)>, k: K, v: V)
    requires |m| > 0 && m[0].0 == k
    ensures var r := [(k, v)] + m[1..];
      && Get(r, k) == Some(v)
      && (forall k' {:trigger Get(r, k')} :: k' != k ==> Get(r, k') == Get(m, k'))
      && Keys(r) == Keys(m) && k in Keys(m)
      && (DistinctKeys(m) ==> DistinctKeys(r))
      && (forall p :: p in r ==> p in m || p == (k, v))
  {
    KeysCons((k, v), m[1..]);
    KeysCons(m[0], m[1..]);
    assert m == [m[0]] + m[1..];
    forall k' | k' != k ensures Get([(k, v)] + m[1..], k') == Get(m, k') {
      GetCons((k, v), m[1..], k');
      GetCons(m[0], m[1..], k');
    }
  }

  /** `Put` when the first entry has another key, given `rest`, the result
      of putting into the tail. */
  lemma PutFurther<K(!new), V(!new)>(m: seq<(K, V)>, k: K, v: V, rest: seq<(K, V)>)
    requires |m| > 0 && m[0].0 != k
    requires Get(rest, k) == Some(v)
    requires forall k' {:trigger Get(rest, k')} :: k' != k ==> Get(rest, k') == Get(m[1..], k')
    requires Keys(rest) == if k in Keys(m[1..]) then Keys(m[1..]) else Keys(m[1..]) + [k]
    requires DistinctKeys(m[1..]) ==> DistinctKeys(rest)
    requires forall p :: p in rest ==> p in m[1..] || p == (k, v)
    ensures var r := [m[0]] + rest;
      && Get(r, k) == Some(v)
      && (forall k' {:trigger Get(r, k')} :: k' != k ==> Get(r, k') == Get(m, k'))
      && Keys(r) == (if k in Keys(m) then Keys(m) else Keys(m) + [k])
      && (DistinctKeys(m) ==> DistinctKeys(r))
      && (forall p :: p in r ==> p in m || p == (k, v))
  {
    var r := [m[0]] + rest;
    assert m == [m[0]] + m[1..];
    GetCons(m[0], rest, k);
    forall k' | k' != k ensures Get(r, k') == Get(m, k') {
      GetCons(m[0], rest, k');
      GetCons(m[0], m[1..], k');
    }
    KeysCons(m[0], rest);
    KeysCons(m[0], m[1..]);
    assert k in Keys(m) <==> k in Keys(m[1..]);
    if DistinctKeys(m) {
      ConsNoDup(m[0].0, Keys(m[1..]));
      ConsNoDup(m[0].0, Keys(rest));
    }
  }

  /** A fresh key goes to the end of the iteration order. */
  lemma {:induction false} PutFresh<K(!new), V(!new)>(m: seq<(K, V)>, k: K, v: V)
    requires k !in Keys(m)
    ensures Put(m, k, v) == m + [(k, v)]
  {
    if |m| > 0 {
      KeysCons(m[0], m[1..]);
      assert m == [m[0]] + m[1..];
      PutFresh(m[1..], k, v);
      assert [m[0]] + (m[1..] + [(k, v)]) == m + [(k, v)];
    }
  }

  /** `Map.prototype.delete`. */
  function Remove<K(==,!new), V(!new)>(m: seq<(K, V)>, k: K): (r: seq<(K, V)>)
    ensures Get(r, k) == None
    ensures forall k' {:trigger Get(r, k')} :: k' != k ==> Get(r, k') == Get(m, k')
    ensures Keys(r) == Without(Keys(m), k)
    ensures DistinctKeys(m) ==> DistinctKeys(r)
    ensures forall p :: p in r ==> p in m
  {
    if |m| == 0 then []
    else if m[0].0 == k then
      KeysCons(m[0], m[1..]);
      ConsNoDup(m[0].0, Keys(m[1..]));
      Remove(m[1..], k)
    else
      var rest := Remove(m[1..], k);
      KeysCons(m[0], rest);
      KeysCons(m[0], m[1..]);
      ConsNoDup(m[0].0, Keys(rest));
      ConsNoDup(m[0].0, Keys(m[1..]));
      [m[0]] + rest
  }

  /** Setting a key twice is setting it once, to the second value. */
  lemma {:induction false} PutPut<K(!new), V(!new)>(m: seq<(K, V)>, k: K, v1: V, v2: V)
    ensures Put(Put(m, k, v1), k, v2) == Put(m, k, v2)
  {
    if |m| > 0 && m[0].0 != k {
      PutPut(m[1..], k, v1, v2);
    }
  }

  /** Setting a key to the value it already has changes nothing, not even
      the iteration order. */
  lemma {:induction false} PutCurrent<K(!new), V(!new)>(m: seq<(K, V)>, k: K)
    requires k in Keys(m)
    ensures Put(m, k, Get(m, k).value) == m
  {
    if m[0].0 != k {
      PutCurrent(m[1..], k);
    }
  }

  /** Deleting a key that was just added as a fresh entry restores the map. */
  lemma {:induction false} RemovePutFresh<K(!new), V(!new)>(m: seq<(K, V)>, k: K, v: V)
    requires k !in Keys(m)
    ensures Remove(Put(m, k, v), k) == m
  {
    if |m| > 0 {
      RemovePutFresh(m[1..], k, v);
    }
  }
}

=== FILE: ordered_set.dfy ===
/** A JavaScript `Set` as the sequence of its elements in insertion order.
    `Add` appends a fresh element and leaves an existing one where it is;
    `Without` deletes an element and keeps the order of the rest. The same
    `Without` is the `Array.prototype.filter(x => x !== v)` of the source. */
module OrderedSet {

  /** No element occurs twice. */
  predicate NoDup<T(==)>(s: seq<T>) {
    forall i, j :: 0 <= i < j < |s| ==> s[i] != s[j]
  }

  /** `r` keeps some of the elements of `s`, in the order they have in `s`. */
  predicate IsSubsequence<T(==)>(r: seq<T>, s: seq<T>)
    decreases |s|
  {
    if |r| == 0 then true
    else if |s| == 0 then false
    else if r[0] == s[0] then IsSubsequence(r[1..], s[1..])
    else IsSubsequence(r, s[1..])
  }

  /** `Set.prototype.add`: a no-op for a present element, otherwise the
      element goes to the end of the iteration order. */
  function Add<T(==,!new)>(s: seq<T>, x: T): (r: seq<T>)
    ensures forall y :: y in r <==> y in s || y == x
    ensures s <= r && |r| <= |s| + 1
    ensures x in s ==> r == s
    ensures NoDup(s) ==> NoDup(r)
  {
    if x in s then s else s + [x]
  }

  /** Deletes every occurrence of `x` (`Set.prototype.delete` on a set, and
      `filter(id => id !== x)` on an array). */
  function Without<T(==,!new)>(s: seq<T>, x: T): (r: seq<T>)
    ensures forall y :: y in r <==> y in s && y != x
    ensures IsSubsequence(r, s)
    ensures |r| <= |s|
    ensures x !in s ==> r == s
    ensures NoDup(s) ==> NoDup(r)
    ensures NoDup(s) && x in s ==> |r| == |s| - 1
  {
    if |s| == 0 then []
    else if s[0] == x then Without(s[1..], x)
    else
      var rest := Without(s[1..], x);
      ConsNoDup(s[0], rest);
      [s[0]] + rest
  }

  /** A sequence with a head is duplicate-free exactly when its tail is and
      does not contain the head. */
  lemma ConsNoDup<T>(a: T, s: seq<T>)
    ensures NoDup([a] + s) <==> a !in s && NoDup(s)
  {
    if NoDup([a] + s) {
      forall i, j | 0 <= i < j < |s| ensures s[i] != s[j] {
        assert s[i] == ([a] + s)[i + 1] && s[j] == ([a] + s)[j + 1];
      }
      forall i | 0 <= i < |s| ensures s[i] != a {
        assert s[i] == ([a] + s)[i + 1] && a == ([a] + s)[0];
      }
    }
  }

  /** `Without` keeps every other element as often as it occurred, so with
      `IsSubsequence` it is exactly `filter`, duplicates included. */
  lemma {:induction false} WithoutCounts<T(!new)>(s: seq<T>, x: T)
    ensures forall y :: multiset(Without(s, x))[y] == if y == x then 0 else multiset(s)[y]
  {
    if |s| > 0 {
      var t := s[1..];
      WithoutCounts(t, x);
      assert s == [s[0]] + t;
      assert multiset(s) == multiset{s[0]} + multiset(t);
      if s[0] != x {
        assert Without(s, x) == [s[0]] + Without(t, x);
        assert multiset(Without(s, x)) == multiset{s[0]} + multiset(Without(t, x));
      }
    }
  }

  /** Deleting an element just appended undoes the append. */
  lemma {:induction false} WithoutAppended<T(!new)>(s: seq<T>, x: T)
    requires x !in s
    ensures Without(s + [x], x) == s
  {
    if |s| == 0 {
      assert s + [x] == [x];
    } else {
      assert (s + [x])[1..] == s[1..] + [x];
      WithoutAppended(s[1..], x);
    }
  }
}

=== FILE: properties.dfy ===
/** Properties that relate several calls: idempotence, round trips, and the
    places where the operations do not undo each other. */
module Properties {
  import opened Wrappers
  import opened OrderedSet
  import opened OrderedMap
  import opened Registry
  import opened Relay

  // ---------------------------------------------------------------------
  // Membership
  // ---------------------------------------------------------------------

  /** Joining twice is joining once: the second join, whatever its
      connection and transport outcome, changes nothing and emits nothing. */
  lemma JoinIdempotent(s: State, socket1: SocketId, socket2: SocketId, room: RoomId, user: UserId, ok2: bool)
    ensures var t1 := AddUserToRoom(s, socket1, room, user, true);
            AddUserToRoom(t1.next, socket2, room, user, ok2) == NoOp(t1.next)
  {
  }

  /** After the only member leaves, the room is gone and asking for its
      members yields an empty list. */
  lemma SoleMemberLeaves(s: State, socket: SocketId, room: RoomId, user: UserId)
    requires Members(s, room) == []
    ensures var s1 := AddUserToRoom(s, socket, room, user, true).next;
            var s2 := RemoveUserFromRoom(s1, room, user, true).next;
            && !HasRoom(s2, room)
            && GetRoomUsers(s2, room).emitted == [Event(ToSelf, "room-users", RoomUsersPayload([]))]
  {
  }

  /** Leaving undoes joining, provided the user had no recorded connection
      and the room was either unknown or had other members. */
  lemma JoinLeaveRoundTrip(s: State, socket: SocketId, room: RoomId, user: UserId)
    requires user !in Members(s, room)
    requires user !in Keys(s.userToSocket)
    requires HasRoom(s, room) ==> Members(s, room) != []
    ensures var s1 := AddUserToRoom(s, socket, room, user, true).next;
            RemoveUserFromRoom(s1, room, user, true).next == s
  {
    var s1 := AddUserToRoom(s, socket, room, user, true).next;
    RemovePutFresh(s.userToSocket, user, socket);
    DropAppendedMember(s.roomToUsers, room, Members(s, room), user);
    assert RemoveUserFromRoom(s1, room, user, true).next
        == State(Remove(s1.userToSocket, user), DropMember(s1.roomToUsers, room, user), s1.userToTrack);
  }

  /** The member-set half of the round trip. */
  lemma {:induction false} DropAppendedMember(rooms: seq<(RoomId, seq<UserId>)>, room: RoomId, members: seq<UserId>, user: UserId)
    requires user !in members
    requires Get(rooms, room).GetOr([]) == members
    requires room in Keys(rooms) ==> members != []
    ensures DropMember(Put(rooms, room, Add(members, user)), room, user) == rooms
  {
    var rooms1 := Put(rooms, room, members + [user]);
    assert Add(members, user) == members + [user];
    assert Get(rooms1, room) == Some(members + [user]);
    WithoutAppended(members, user);
    if room in Keys(rooms) {
      assert DropMember(rooms1, room, user) == Put(rooms1, room, members);
      PutPut(rooms, room, members + [user], members);
      PutCurrent(rooms, room);
    } else {
      assert members + [user] == [user];
      assert DropMember(rooms1, room, user) == Remove(rooms1, room);
      RemovePutFresh(rooms, room, [user]);
    }
  }

  /** A room created empty by a handshake relay does not survive a join and
      leave: the leave deletes it. So leaving does not always undo joining. */
  lemma JoinLeaveDropsEmptyRoom(s: State, socket: SocketId, room: RoomId, user: UserId)
    requires HasRoom(s, room) && Members(s, room) == []
    ensures var s1 := AddUserToRoom(s, socket, room, user, true).next;
            !HasRoom(RemoveUserFromRoom(s1, room, user, true).next, room)
  {
  }

  /** After a successful join of a newcomer, the member list sent by
      `getRoomUsers` is the earlier list followed by the newcomer. */
  lemma RoomUsersAfterJoin(s: State, socket: SocketId, room: RoomId, user: UserId)
    requires user !in Members(s, room)
    ensures var s1 := AddUserToRoom(s, socket, room, user, true).next;
            GetRoomUsers(s1, room).emitted
              == [Event(ToSelf, "room-users", RoomUsersPayload(Members(s, room) + [user]))]
  {
  }

  /** After a successful leave, the member list sent by `getRoomUsers` is the
      earlier list without the user, the others in their joining order. */
  lemma RoomUsersAfterLeave(s: State, room: RoomId, user: UserId)
    ensures var s1 := RemoveUserFromRoom(s, room, user, true).next;
            GetRoomUsers(s1, room).emitted
              == [Event(ToSelf, "room-users", RoomUsersPayload(Without(Members(s, room), user)))]
  {
  }

  // ---------------------------------------------------------------------
  // Tracks
  // ---------------------------------------------------------------------

  /** Adding or removing a track in one room leaves the owner lookup of
      every other room exactly as it was. */
  lemma TrackOpsKeepOtherLookups(s: State, room: RoomId, user: UserId, track: TrackId, other: RoomId, t: TrackId)
    requires other != room
    ensures GetUserUUIDByTrackID(TrackAdded(s, room, user, track).next, other, t).emitted
         == GetUserUUIDByTrackID(s, other, t).emitted
    ensures GetUserUUIDByTrackID(TrackRemoved(s, room, user, track).next, other, t).emitted
         == GetUserUUIDByTrackID(s, other, t).emitted
  {
    assert Get(TrackAdded(s, room, user, track).next.userToTrack, other) == Get(s.userToTrack, other);
    assert Get(TrackRemoved(s, room, user, track).next.userToTrack, other) == Get(s.userToTrack, other);
  }

  /** Adding the same track twice adds it once and announces it once. */
  lemma TrackAddedTwice(s: State, room: RoomId, user: UserId, track: TrackId)
    requires room != "" && TracksOf(s, room, user) == []
    ensures var t1 := TrackAdded(s, room, user, track);
            && TracksOf(t1.next, room, user) == [track]
            && |t1.emitted| == 1
            && TrackAdded(t1.next, room, user, track) == NoOp(t1.next)
  {
  }

  /** Removing a freshly added track undoes the addition. When the user
      already had tracks in the room the whole registry is restored; when
      they had none, their entry is gone again (the room's track map itself
      stays). */
  lemma {:induction false} TrackAddRemoveRoundTrip(s: State, room: RoomId, user: UserId, track: TrackId)
    requires Wf(s) && room != "" && track !in TracksOf(s, room, user)
    ensures var s1 := TrackAdded(s, room, user, track).next;
            var s2 := TrackRemoved(s1, room, user, track).next;
            && UserTracks(s2, room, user) == UserTracks(s, room, user)
            && (UserTracks(s, room, user).Some? ==> s2 == s)
  {
    if UserTracks(s, room, user).Some? {
      UserTracksWf(s, room, user);
      var ts := UserTracks(s, room, user).value;
      AddedIsFiled(s, room, user, track);
      var s1 := FileTracks(s, room, user, ts + [track]);
      FileTracksFacts(s, room, user, ts + [track]);
      RemovedIsFiled(s1, room, user, ts, track);
      WithoutAppended(ts, track);
      FileTracksTwice(s, room, user, ts + [track], ts);
      FileTracksCurrent(s, room, user);
    }
  }

  /** A fresh track is added by storing the extended list. */
  lemma AddedIsFiled(s: State, room: RoomId, user: UserId, track: TrackId)
    requires room != "" && track !in TracksOf(s, room, user)
    ensures TrackAdded(s, room, user, track).next == FileTracks(s, room, user, TracksOf(s, room, user) + [track])
  {
    assert Add(TracksOf(s, room, user), track) == TracksOf(s, room, user) + [track];
  }

  /** Removing the last of two or more tracks stores the filtered list. */
  lemma RemovedIsFiled(s: State, room: RoomId, user: UserId, ts: TrackList, track: TrackId)
    requires room != "" && ts != [] && UserTracks(s, room, user) == Some(ts + [track])
    ensures TrackRemoved(s, room, user, track).next == FileTracks(s, room, user, Without(ts + [track], track))
  {
  }

  /** Storing two track lists in a row is storing the second. */
  lemma FileTracksTwice(s: State, room: RoomId, user: UserId, ts1: TrackList, ts2: TrackList)
    ensures FileTracks(FileTracks(s, room, user, ts1), room, user, ts2) == FileTracks(s, room, user, ts2)
  {
    var roomTracks := Get(s.userToTrack, room).GetOr([]);
    var s1 := FileTracks(s, room, user, ts1);
    assert Get(s1.userToTrack, room) == Some(Put(roomTracks, user, ts1));
    PutPut(roomTracks, user, ts1, ts2);
    PutPut(s.userToTrack, room, Put(roomTracks, user, ts1), Put(roomTracks, user, ts2));
  }

  /** Storing the list a user already has changes nothing. */
  lemma FileTracksCurrent(s: State, room: RoomId, user: UserId)
    requires UserTracks(s, room, user).Some?
    ensures FileTracks(s, room, user, UserTracks(s, room, user).value) == s
  {
    var roomTracks := Get(s.userToTrack, room).value;
    PutCurrent(roomTracks, user);
    PutCurrent(s.userToTrack, room);
  }

  /** A one-element list is deleted whichever track is named, so removing a
      track the user never published withdraws the one they did. */
  lemma TrackRemovedSingleton(s: State, room: RoomId, user: UserId, kept: TrackId, track: TrackId)
    requires room != "" && UserTracks(s, room, user) == Some([kept])
    ensures var t := TrackRemoved(s, room, user, track);
            && UserTracks(t.next, room, user) == None
            && t.emitted == [Event(ToOthersInRoom(room), "track-removed", TrackPayload(track, user))]
  {
  }

  /** Removing the same track twice is not idempotent: from `[track, other]`
      the first call leaves `[other]` and the second deletes `other` too.
      Both calls announce the removal of `track`. */
  lemma TrackRemovedTwice(s: State, room: RoomId, user: UserId, track: TrackId, other: TrackId)
    requires room != "" && other != track && UserTracks(s, room, user) == Some([track, other])
    ensures var t1 := TrackRemoved(s, room, user, track);
            var t2 := TrackRemoved(t1.next, room, user, track);
            && UserTracks(t1.next, room, user) == Some([other])
            && UserTracks(t2.next, room, user) == None
            && t1.emitted == t2.emitted == [Event(ToOthersInRoom(room), "track-removed", TrackPayload(track, user))]
  {
    assert Without([track, other], track) == [other];
  }

  /** Once a track's only list is gone, a second removal is silent. */
  lemma TrackRemovedAfterDelete(s: State, room: RoomId, user: UserId, track: TrackId)
    requires room != "" && UserTracks(s, room, user) == Some([track])
    ensures var t1 := TrackRemoved(s, room, user, track);
            && t1.emitted != []
            && TrackRemoved(t1.next, room, user, track) == NoOp(t1.next)
  {
  }

  // ---------------------------------------------------------------------
  // Scenarios
  // ---------------------------------------------------------------------

  /** The first offer to a fresh room is dropped, and the room it creates has
      no members: a registered room may be empty. */
  lemma FirstOfferDropped()
    ensures var t := RelayHandshake(Initial, Offer, "x", "R1");
            && t.emitted == []
            && HasRoom(t.next, "R1") && Members(t.next, "R1") == []
  {
  }

  /** Once A and B have joined R1, A's offer is relayed to the others in R1. */
  lemma OfferAfterJoins()
    ensures var s1 := AddUserToRoom(Initial, "sa", "R1", "A", true).next;
            var s2 := AddUserToRoom(s1, "sb", "R1", "B", true).next;
            && Members(s2, "R1") == ["A", "B"]
            && RelayHandshake(s2, Offer, "x", "R1").emitted
                 == [Event(ToOthersInRoom("R1"), "rtc-offer", Opaque("x"))]
  {
    assert Members(Initial, "R1") == [];
    OfferAfterTwoJoins(Initial, "sa", "sb", "R1", "A", "B", "x");
  }

  /** Two newcomers joining a room with no members, then an offer to it: the
      members are the two in joining order and the offer is relayed. */
  lemma OfferAfterTwoJoins(s: State, sa: SocketId, sb: SocketId, room: RoomId, a: UserId, b: UserId, offer: string)
    requires room != "" && a != b && Members(s, room) == []
    ensures var s1 := AddUserToRoom(s, sa, room, a, true).next;
            var s2 := AddUserToRoom(s1, sb, room, b, true).next;
            && Members(s2, room) == [a, b]
            && RelayHandshake(s2, Offer, offer, room).emitted
                 == [Event(ToOthersInRoom(room), "rtc-offer", Opaque(offer))]
  {
    var s1 := AddUserToRoom(s, sa, room, a, true).next;
    JoinAppends(s, s1, sa, room, a);
    var s2 := AddUserToRoom(s1, sb, room, b, true).next;
    JoinAppends(s1, s2, sb, room, b);
  }

  /** A successful join of a newcomer appends them to the member list. */
  lemma JoinAppends(s: State, s': State, socket: SocketId, room: RoomId, user: UserId)
    requires user !in Members(s, room)
    requires s' == AddUserToRoom(s, socket, room, user, true).next
    ensures Members(s', room) == Members(s, room) + [user] && HasRoom(s', room)
  {
  }

  /** A user's first track in a room puts them at the end of the room's
      track map, which is created if needed. */
  lemma NewPublisherLast(s: State, room: RoomId, user: UserId, track: TrackId)
    requires room != "" && UserTracks(s, room, user).None?
    ensures Get(TrackAdded(s, room, user, track).next.userToTrack, room)
         == Some(Get(s.userToTrack, room).GetOr([]) + [(user, [track])])
  {
    var roomTracks := Get(s.userToTrack, room).GetOr([]);
    assert user !in Keys(roomTracks);
    assert Add([], track) == [track];
    assert TrackAdded(s, room, user, track).next == FileTracks(s, room, user, [track]);
    PutFresh(roomTracks, user, [track]);
  }

  /** When `a` and then `b` publish the same track in a room without a track
      map, the lookup names `b`, the later entry in the room's track map. */
  lemma TrackOwnerCollision(s: State, room: RoomId, a: UserId, b: UserId, track: TrackId)
    requires room != "" && a != b && b != ""
    requires Get(s.userToTrack, room).None?
    ensures var s1 := TrackAdded(s, room, a, track).next;
            var s2 := TrackAdded(s1, room, b, track).next;
            GetUserUUIDByTrackID(s2, room, track).emitted == [OwnerEvent(room, track, b)]
  {
    var s1 := TrackAdded(s, room, a, track).next;
    FirstPublisher(s, room, a, track);
    SecondPublisher(s1, room, a, b, track);
    LaterOwnerWins(TrackAdded(s1, room, b, track).next, room, a, b, track);
  }

  /** The first publisher in a room without a track map is its only entry. */
  lemma FirstPublisher(s: State, room: RoomId, a: UserId, track: TrackId)
    requires room != "" && Get(s.userToTrack, room).None?
    ensures Get(TrackAdded(s, room, a, track).next.userToTrack, room) == Some([(a, [track])])
  {
    NewPublisherLast(s, room, a, track);
    assert [] + [(a, [track])] == [(a, [track])];
  }

  /** A second, different publisher goes after the first. */
  lemma SecondPublisher(s: State, room: RoomId, a: UserId, b: UserId, track: TrackId)
    requires room != "" && a != b
    requires Get(s.userToTrack, room) == Some([(a, [track])])
    ensures Get(TrackAdded(s, room, b, track).next.userToTrack, room) == Some([(a, [track])] + [(b, [track])])
  {
    assert UserTracks(s, room, b) == None by {
      assert [(a, [track])][1..] == [];
    }
    NewPublisherLast(s, room, b, track);
  }

  lemma LaterOwnerWins(s: State, room: RoomId, a: UserId, b: UserId, track: TrackId)
    requires b != ""
    requires Get(s.userToTrack, room) == Some([(a, [track])] + [(b, [track])])
    ensures GetUserUUIDByTrackID(s, room, track).emitted == [OwnerEvent(room, track, b)]
  {
    var m := [(a, [track])] + [(b, [track])];
    assert IsLastOwner(m, track, b) by {
      assert m[1].0 == b && track in m[1].1;
    }
  }
}

=== FILE: registry.dfy ===
/** The three process-wide maps of the signalling server and the events an
    operation emits. All identifiers are caller-supplied strings. */
module Registry {
  import opened Wrappers
  import opened OrderedSet
  import opened OrderedMap

  type UserId = string
  type RoomId = string
  type TrackId = string
  type SocketId = string

  /** A user's published track identifiers, in the order they were added. */
  type TrackList = seq<TrackId>

  /** The track map of one room: user to track list, in insertion order. */
  type RoomTracks = seq<(UserId, TrackList)>

  /** The registry.
      - `userToSocket`: user to the connection id of their latest join;
      - `roomToUsers`: room to its member set (a sequence in insertion order);
      - `userToTrack`: room to that room's track map. */
  datatype State = State(
    userToSocket: seq<(UserId, SocketId)>,
    roomToUsers: seq<(RoomId, seq<UserId>)>,
    userToTrack: seq<(RoomId, RoomTracks)>)

  /** The registry at process start. */
  const Initial: State := State([], [], [])

  /** Who receives an event: the calling connection itself, or every other
      connection that joined the room's transport group. */
  datatype Target = ToSelf | ToOthersInRoom(room: RoomId)

  /** Event payloads. `Opaque` is an offer, answer or ICE candidate, relayed
      without being looked at. */
  datatype Payload =
    | Opaque(body: string)
    | MemberPayload(userUUID: UserId)
    | SelfLeftPayload(success: bool)
    | RoomUsersPayload(users: seq<UserId>)
    | TrackPayload(trackID: TrackId, userUUID: UserId)

  datatype Event = Event(target: Target, name: string, payload: Payload)

  /** What an operation leaves behind: the next registry and the events it
      emitted, in emission order. */
  datatype Transition = Transition(next: State, emitted: seq<Event>)

  /** The state unchanged and nothing emitted: the outcome of every early
      return and of every caught transport failure. */
  function NoOp(s: State): Transition {
    Transition(s, [])
  }

  predicate HasRoom(s: State, room: RoomId) {
    room in Keys(s.roomToUsers)
  }

  /** The room's member set in iteration order; empty for an unknown room. */
  function Members(s: State, room: RoomId): seq<UserId> {
    Get(s.roomToUsers, room).GetOr([])
  }

  /** The stored track list of (room, user), if there is one. */
  function UserTracks(s: State, room: RoomId, user: UserId): Option<TrackList> {
    match Get(s.userToTrack, room)
    case None => None
    case Some(m) => Get(m, user)
  }

  /** The track list of (room, user), empty when nothing is stored. */
  function TracksOf(s: State, room: RoomId, user: UserId): TrackList {
    UserTracks(s, room, user).GetOr([])
  }

  /** The users holding a track list in `room`, in the room's iteration
      order; the owner lookup picks the last of them that holds the track. */
  function Publishers(s: State, room: RoomId): seq<UserId> {
    Keys(Get(s.userToTrack, room).GetOr([]))
  }

  /** A stored track list is never empty and never repeats a track. */
  predicate TrackListWf(ts: TrackList) {
    |ts| > 0 && NoDup(ts)
  }

  predicate RoomTracksWf(m: RoomTracks) {
    DistinctKeys(m) && forall e :: e in m ==> TrackListWf(e.1)
  }

  /** The shape every reachable registry has: each map has distinct keys,
      each member set distinct elements, and each track list is well formed.
      A member set may be empty (see the handshake relay). */
  predicate Wf(s: State) {
    && DistinctKeys(s.userToSocket)
    && DistinctKeys(s.roomToUsers)
    && (forall e :: e in s.roomToUsers ==> NoDup(e.1))
    && DistinctKeys(s.userToTrack)
    && (forall e :: e in s.userToTrack ==> RoomTracksWf(e.1))
  }

  /** In a well-formed registry the stored member set is duplicate-free. */
  lemma MembersNoDup(s: State, room: RoomId)
    requires Wf(s)
    ensures NoDup(Members(s, room))
  {
  }

  /** In a well-formed registry a stored track list is well formed. */
  lemma UserTracksWf(s: State, room: RoomId, user: UserId)
    requires Wf(s)
    ensures UserTracks(s, room, user).Some? ==> TrackListWf(UserTracks(s, room, user).value)
    ensures Get(s.userToTrack, room).Some? ==> RoomTracksWf(Get(s.userToTrack, room).value)
  {
  }
}

=== FILE: relay.dfy ===
/** The nine operations of the signalling server, each a pure transition
    from the registry before the call to the registry after it plus the
    events emitted. The transport's `join`/`leave` are reduced to a flag
    saying whether they succeeded. */
module Relay {
  import opened Wrappers
  import opened OrderedSet
  import opened OrderedMap
  import opened Registry

  // ---------------------------------------------------------------------
  // Handshake relay: rtcOffer, rtcAnswer, iceCandidate
  // ---------------------------------------------------------------------

  /** The three handshake messages share one relay policy. */
  datatype Handshake = Offer | Answer | Candidate

  function EventName(kind: Handshake): string {
    match kind
    case Offer => "rtc-offer"
    case Answer => "rtc-answer"
    case Candidate => "ice-candidate"
  }

  /** Relays an offer, answer or ICE candidate to the other members of
      `room`. An empty room id aborts. An unknown room gets an empty member
      set and the message is dropped. */
  function RelayHandshake(s: State, kind: Handshake, payload: string, room: RoomId): (t: Transition)
    ensures t.next.userToSocket == s.userToSocket && t.next.userToTrack == s.userToTrack
    ensures room == "" ==> t == NoOp(s)
    ensures room != "" && !HasRoom(s, room) ==>
      && t.emitted == []
      && HasRoom(t.next, room) && Members(t.next, room) == []
      && Keys(t.next.roomToUsers) == Keys(s.roomToUsers) + [room]
      && (forall r {:trigger Get(t.next.roomToUsers, r)} :: r != room ==> Get(t.next.roomToUsers, r) == Get(s.roomToUsers, r))
    ensures room != "" && HasRoom(s, room) ==>
      && t.next == s
      && t.emitted == [Event(ToOthersInRoom(room), EventName(kind), Opaque(payload))]
    ensures Wf(s) ==> Wf(t.next)
  {
    if room == "" then NoOp(s)
    else if !HasRoom(s, room) then
      Transition(s.(roomToUsers := Put(s.roomToUsers, room, [])), [])
    else
      Transition(s, [Event(ToOthersInRoom(room), EventName(kind), Opaque(payload))])
  }

  // ---------------------------------------------------------------------
  // Track registry: trackAdded, trackRemoved, getUserUUIDByTrackID
  // ---------------------------------------------------------------------

  /** Records that `user` publishes `track` in `room` and tells the other
      members. A track already in the user's list is a silent no-op. Room
      membership is not consulted. */
  function TrackAdded(s: State, room: RoomId, user: UserId, track: TrackId): (t: Transition)
    ensures t.next.userToSocket == s.userToSocket && t.next.roomToUsers == s.roomToUsers
    ensures room == "" ==> t == NoOp(s)
    ensures track in TracksOf(s, room, user) ==> t == NoOp(s)
    ensures room != "" && track !in TracksOf(s, room, user) ==>
      && UserTracks(t.next, room, user) == Some(TracksOf(s, room, user) + [track])
      && Publishers(t.next, room) ==
           (if UserTracks(s, room, user).Some? then Publishers(s, room) else Publishers(s, room) + [user])
      && Keys(t.next.userToTrack) ==
           (if room in Keys(s.userToTrack) then Keys(s.userToTrack) else Keys(s.userToTrack) + [room])
      && t.emitted == [Event(ToOthersInRoom(room), "track-added", TrackPayload(track, user))]
    ensures forall r, u {:trigger UserTracks(t.next, r, u)} :: (r, u) != (room, user) ==> UserTracks(t.next, r, u) == UserTracks(s, r, u)
    ensures forall r {:trigger Get(t.next.userToTrack, r)} :: r != room ==> Get(t.next.userToTrack, r) == Get(s.userToTrack, r)
    ensures Wf(s) ==> Wf(t.next)
  {
    if room == "" then NoOp(s)
    else
      var tracks := TracksOf(s, room, user);
      if track in tracks then NoOp(s)
      else
        var s' := FileTracks(s, room, user, Add(tracks, track));
        FileTracksFacts(s, room, user, Add(tracks, track));
        FileTracksOrder(s, room, user, Add(tracks, track));
        FileTracksRooms(s, room, user, Add(tracks, track));
        assert Wf(s) ==> Wf(s') by {
          if Wf(s) {
            UserTracksWf(s, room, user);
            FileTracksWf(s, room, user, Add(tracks, track));
          }
        }
        Transition(s', [Event(ToOthersInRoom(room), "track-added", TrackPayload(track, user))])
  }

  /** Stores `ts` as the track list of (room, user), creating the room's track
      map at the end if needed. Used by both track operations. */
  function FileTracks(s: State, room: RoomId, user: UserId, ts: TrackList): State {
    var roomTracks := Get(s.userToTrack, room).GetOr([]);
    s.(userToTrack := Put(s.userToTrack, room, Put(roomTracks, user, ts)))
  }

  /** Deletes the track list of (room, user), keeping the room's track map
      even when it becomes empty. */
  function DropTracks(s: State, room: RoomId, user: UserId): State {
    var roomTracks := Get(s.userToTrack, room).GetOr([]);
    s.(userToTrack := Put(s.userToTrack, room, Remove(roomTracks, user)))
  }

  /** Storing a list for (room, user) sets that pair's list and no other. */
  lemma FileTracksFacts(s: State, room: RoomId, user: UserId, ts: TrackList)
    ensures var s' := FileTracks(s, room, user, ts);
      && UserTracks(s', room, user) == Some(ts)
      && (forall r, u {:trigger UserTracks(s', r, u)} :: (r, u) != (room, user) ==> UserTracks(s', r, u) == UserTracks(s, r, u))
  {
    var s' := FileTracks(s, room, user, ts);
    assert Get(s'.userToTrack, room) == Some(Put(Get(s.userToTrack, room).GetOr([]), user, ts));
    forall r, u | (r, u) != (room, user) ensures UserTracks(s', r, u) == UserTracks(s, r, u) {
      FileTracksOther(s, room, user, ts, r, u);
    }
  }

  /** One other pair is untouched by storing a list for (room, user). */
  lemma FileTracksOther(s: State, room: RoomId, user: UserId, ts: TrackList, r: RoomId, u: UserId)
    requires (r, u) != (room, user)
    ensures UserTracks(FileTracks(s, room, user, ts), r, u) == UserTracks(s, r, u)
  {
    if r == room {
      FileTracksNeighbour(s, room, user, ts, u);
    } else {
      FileTracksRooms(s, room, user, ts);
      assert Get(FileTracks(s, room, user, ts).userToTrack, r) == Get(s.userToTrack, r);
    }
  }

  /** Another user's list in the same room is untouched. */
  lemma FileTracksNeighbour(s: State, room: RoomId, user: UserId, ts: TrackList, u: UserId)
    requires u != user
    ensures UserTracks(FileTracks(s, room, user, ts), room, u) == UserTracks(s, room, u)
  {
    var roomTracks := Get(s.userToTrack, room).GetOr([]);
    var inner := Put(roomTracks, user, ts);
    assert Get(inner, u) == Get(roomTracks, u);
    assert Get(FileTracks(s, room, user, ts).userToTrack, room) == Some(inner);
    assert UserTracks(s, room, u) == Get(roomTracks, u);
  }

  /** Storing a list for (room, user) keeps the user's place in the room's
      track map, or appends them if they had no list. */
  lemma FileTracksOrder(s: State, room: RoomId, user: UserId, ts: TrackList)
    ensures Publishers(FileTracks(s, room, user, ts), room) ==
      (if UserTracks(s, room, user).Some? then Publishers(s, room) else Publishers(s, room) + [user])
  {
    var roomTracks := Get(s.userToTrack, room).GetOr([]);
    var roomTracks' := Put(roomTracks, user, ts);
    assert Get(FileTracks(s, room, user, ts).userToTrack, room) == Some(roomTracks');
    assert UserTracks(s, room, user) == Get(roomTracks, user);
  }

  /** Storing a list for (room, user) appends the room's track map if it had
      none and leaves every other room's track map as it was. */
  lemma FileTracksRooms(s: State, room: RoomId, user: UserId, ts: TrackList)
    ensures var s' := FileTracks(s, room, user, ts);
      && (forall r {:trigger Get(s'.userToTrack, r)} :: r != room ==> Get(s'.userToTrack, r) == Get(s.userToTrack, r))
      && Keys(s'.userToTrack) ==
           (if room in Keys(s.userToTrack) then Keys(s.userToTrack) else Keys(s.userToTrack) + [room])
  {
  }

  /** Storing a well-formed list keeps the registry well formed. */
  lemma FileTracksWf(s: State, room: RoomId, user: UserId, ts: TrackList)
    requires Wf(s) && TrackListWf(ts)
    ensures Wf(FileTracks(s, room, user, ts))
  {
    var roomTracks := Get(s.userToTrack, room).GetOr([]);
    UserTracksWf(s, room, user);
    PutTrackListWf(roomTracks, user, ts);
    RoomTracksPutWf(s, room, Put(roomTracks, user, ts), FileTracks(s, room, user, ts));
  }

  lemma DropTracksFacts(s: State, room: RoomId, user: UserId)
    requires room in Keys(s.userToTrack)
    ensures var s' := DropTracks(s, room, user);
      && UserTracks(s', room, user) == None
      && (forall r, u {:trigger UserTracks(s', r, u)} :: (r, u) != (room, user) ==> UserTracks(s', r, u) == UserTracks(s, r, u))
      && (forall r {:trigger Get(s'.userToTrack, r)} :: r != room ==> Get(s'.userToTrack, r) == Get(s.userToTrack, r))
      && Publishers(s', room) == Without(Publishers(s, room), user)
      && Keys(s'.userToTrack) == Keys(s.userToTrack)
      && (Wf(s) ==> Wf(s'))
  {
    var s' := DropTracks(s, room, user);
    var roomTracks := Get(s.userToTrack, room).GetOr([]);
    var roomTracks' := Remove(roomTracks, user);
    assert Get(s'.userToTrack, room) == Some(roomTracks');
    assert Publishers(s', room) == Keys(roomTracks');
    forall r, u | (r, u) != (room, user) ensures UserTracks(s', r, u) == UserTracks(s, r, u) {
      if r == room {
        assert Get(roomTracks', u) == Get(roomTracks, u);
      } else {
        assert Get(s'.userToTrack, r) == Get(s.userToTrack, r);
      }
    }
    if Wf(s) {
      UserTracksWf(s, room, user);
      RemoveTrackListWf(roomTracks, user);
      RoomTracksPutWf(s, room, roomTracks', s');
    }
  }

  lemma PutTrackListWf(m: RoomTracks, user: UserId, ts: TrackList)
    requires RoomTracksWf(m) && TrackListWf(ts)
    ensures RoomTracksWf(Put(m, user, ts))
  {
  }

  lemma RemoveTrackListWf(m: RoomTracks, user: UserId)
    requires RoomTracksWf(m)
    ensures RoomTracksWf(Remove(m, user))
  {
  }

  /** Filing a well-formed track map under a room keeps the registry well formed. */
  lemma RoomTracksPutWf(s: State, room: RoomId, roomTracks: RoomTracks, s': State)
    requires Wf(s) && RoomTracksWf(roomTracks)
    requires s' == s.(userToTrack := Put(s.userToTrack, room, roomTracks))
    ensures Wf(s')
  {
  }

  /** Withdraws `track` of `user` in `room` and tells the other members. As
      written, a one-element list is deleted whatever track it holds, and the
      event goes out even when `track` was not in a longer list. Nothing is
      emitted when (room, user) has no list. */
  function TrackRemoved(s: State, room: RoomId, user: UserId, track: TrackId): (t: Transition)
    ensures t.next.userToSocket == s.userToSocket && t.next.roomToUsers == s.roomToUsers
    ensures room == "" || UserTracks(s, room, user).None? ==> t == NoOp(s)
    ensures Keys(t.next.userToTrack) == Keys(s.userToTrack)
    ensures room != "" && UserTracks(s, room, user).Some? ==>
      && t.emitted == [Event(ToOthersInRoom(room), "track-removed", TrackPayload(track, user))]
      && var ts := UserTracks(s, room, user).value;
         && UserTracks(t.next, room, user) == (if |ts| == 1 then None else Some(Without(ts, track)))
         && Publishers(t.next, room) == (if |ts| == 1 then Without(Publishers(s, room), user) else Publishers(s, room))
    ensures forall r, u {:trigger UserTracks(t.next, r, u)} :: (r, u) != (room, user) ==> UserTracks(t.next, r, u) == UserTracks(s, r, u)
    ensures forall r {:trigger Get(t.next.userToTrack, r)} :: r != room ==> Get(t.next.userToTrack, r) == Get(s.userToTrack, r)
    ensures room != "" ==> track !in TracksOf(t.next, room, user)
    ensures forall x :: x in TracksOf(t.next, room, user) ==> x in TracksOf(s, room, user)
    ensures Wf(s) ==> Wf(t.next)
  {
    if room == "" then NoOp(s)
    else
      match UserTracks(s, room, user)
      case None => NoOp(s)
      case Some(ts) =>
        var s' :=
          if |ts| == 1 then DropTracks(s, room, user)
          else FileTracks(s, room, user, Without(ts, track));
        DropTracksFacts(s, room, user);
        FileTracksFacts(s, room, user, Without(ts, track));
        FileTracksOrder(s, room, user, Without(ts, track));
        FileTracksRooms(s, room, user, Without(ts, track));
        assert Wf(s) ==> Wf(s') by {
          if Wf(s) && |ts| != 1 {
            UserTracksWf(s, room, user);
            FileTracksWf(s, room, user, Without(ts, track));
          }
        }
        Transition(s', [Event(ToOthersInRoom(room), "track-removed", TrackPayload(track, user))])
  }

  /** Reference definition of the owner lookup: `u` is the key of the last
      entry, in the room's iteration order, whose list holds `track`. */
  ghost predicate IsLastOwner(m: RoomTracks, track: TrackId, u: UserId) {
    exists i :: 0 <= i < |m| && m[i].0 == u && track in m[i].1 &&
      forall j :: i < j < |m| ==> track !in m[j].1
  }

  /** The user whose list is the last one in iteration order to contain
      `track`, if any. */
  function LastOwner(m: RoomTracks, track: TrackId): (r: Option<UserId>)
    ensures r.None? <==> forall i :: 0 <= i < |m| ==> track !in m[i].1
    ensures forall u :: r == Some(u) <==> IsLastOwner(m, track, u)
  {
    if |m| == 0 then None
    else
      var front := m[..|m| - 1];
      LastOwnerStep(m, track);
      if track in m[|m| - 1].1 then Some(m[|m| - 1].0)
      else LastOwner(front, track)
  }

  /** How the reference definition splits off the last entry. */
  lemma LastOwnerStep(m: RoomTracks, track: TrackId)
    requires |m| > 0
    ensures track in m[|m| - 1].1 ==>
      forall u :: IsLastOwner(m, track, u) <==> u == m[|m| - 1].0
    ensures track !in m[|m| - 1].1 ==>
      forall u :: IsLastOwner(m, track, u) <==> IsLastOwner(m[..|m| - 1], track, u)
  {
    var n := |m| - 1;
    var front := m[..n];
    if track in m[n].1 {
      forall u | IsLastOwner(m, track, u) ensures u == m[n].0 {
        var i :| 0 <= i < |m| && m[i].0 == u && track in m[i].1 &&
          forall j :: i < j < |m| ==> track !in m[j].1;
        assert i == n;
      }
      assert IsLastOwner(m, track, m[n].0) by {
        assert 0 <= n < |m| && m[n].0 == m[n].0 && track in m[n].1;
      }
    } else {
      forall u | IsLastOwner(m, track, u) ensures IsLastOwner(front, track, u) {
        var i :| 0 <= i < |m| && m[i].0 == u && track in m[i].1 &&
          forall j :: i < j < |m| ==> track !in m[j].1;
        assert i < n && front[i] == m[i];
        assert forall j :: i < j < |front| ==> front[j] == m[j];
      }
      forall u | IsLastOwner(front, track, u) ensures IsLastOwner(m, track, u) {
        var i :| 0 <= i < |front| && front[i].0 == u && track in front[i].1 &&
          forall j :: i < j < |front| ==> track !in front[j].1;
        assert m[i] == front[i];
        assert forall j :: i < j < |m| ==> track !in m[j].1 by {
          forall j | i < j < |m| ensures track !in m[j].1 {
            if j < n { assert m[j] == front[j]; }
          }
        }
      }
    }
  }

  /** The scan of the source: walk the room's track map in iteration order,
      overwriting the candidate on every match. It finds the last match. */
  method ScanOwner(m: RoomTracks, track: TrackId) returns (target: Option<UserId>)
    ensures forall u :: target == Some(u) <==> IsLastOwner(m, track, u)
    ensures target.None? <==> forall i :: 0 <= i < |m| ==> track !in m[i].1
  {
    target := None;
    var i := 0;
    while i < |m|
      invariant 0 <= i <= |m|
      invariant target == LastOwner(m[..i], track)
    {
      var (user, tracks) := m[i];
      if track in tracks {
        target := Some(user);
      }
      ghost var seen := m[..i + 1];
      assert |seen| - 1 == i && seen[..i] == m[..i] && seen[i] == m[i];
      assert target == LastOwner(seen, track);
      i := i + 1;
    }
    assert m[..i] == m;
    assert target == LastOwner(m, track);
  }

  /** The event announcing the owner of a track. */
  function OwnerEvent(room: RoomId, track: TrackId, u: UserId): Event {
    Event(ToOthersInRoom(room), "user-uuid-by-track-id", TrackPayload(track, u))
  }

  /** Looks up who publishes `track` in `room` and tells the other members.
      Read-only. Nothing is emitted when the room has no track map, when no
      list holds the track, or when the owner found is the empty string
      (the source tests the candidate for falsiness). */
  function GetUserUUIDByTrackID(s: State, room: RoomId, track: TrackId): (t: Transition)
    ensures t.next == s
    ensures Get(s.userToTrack, room).None? ==> t.emitted == []
    ensures Get(s.userToTrack, room).Some? ==>
      var m := Get(s.userToTrack, room).value;
      && ((forall i :: 0 <= i < |m| ==> track !in m[i].1) ==> t.emitted == [])
      && (forall u :: IsLastOwner(m, track, u) ==>
            t.emitted == if u == "" then [] else [OwnerEvent(room, track, u)])
  {
    match Get(s.userToTrack, room)
    case None => NoOp(s)
    case Some(m) =>
      match LastOwner(m, track)
      case None => NoOp(s)
      case Some(u) => if u == "" then NoOp(s) else Transition(s, [OwnerEvent(room, track, u)])
  }

  // ---------------------------------------------------------------------
  // Membership: addUserToRoom, removeUserFromRoom, getRoomUsers
  // ---------------------------------------------------------------------

  /** Joins `user` (on connection `socket`) to `room`. Already a member: a
      silent no-op. Otherwise, once the transport join succeeds, the user is
      appended to the member set (the set is created if needed), their
      connection id is recorded, and `member-joined` goes to the caller and
      to the others. A failed join changes nothing. The room id is not
      checked for emptiness. */
  function AddUserToRoom(s: State, socket: SocketId, room: RoomId, user: UserId, joinOk: bool): (t: Transition)
    ensures t.next.userToTrack == s.userToTrack
    ensures user in Members(s, room) || !joinOk ==> t == NoOp(s)
    ensures user !in Members(s, room) && joinOk ==>
      && Members(t.next, room) == Members(s, room) + [user]
      && HasRoom(t.next, room)
      && Keys(t.next.roomToUsers) == (if HasRoom(s, room) then Keys(s.roomToUsers) else Keys(s.roomToUsers) + [room])
      && (forall r {:trigger Get(t.next.roomToUsers, r)} :: r != room ==> Get(t.next.roomToUsers, r) == Get(s.roomToUsers, r))
      && Get(t.next.userToSocket, user) == Some(socket)
      && (forall u {:trigger Get(t.next.userToSocket, u)} :: u != user ==> Get(t.next.userToSocket, u) == Get(s.userToSocket, u))
      && t.emitted == [Event(ToSelf, "member-joined", MemberPayload(user)),
                       Event(ToOthersInRoom(room), "member-joined", MemberPayload(user))]
    ensures Wf(s) ==> Wf(t.next)
  {
    if user in Members(s, room) || !joinOk then NoOp(s)
    else
      JoinFacts(s, socket, room, user);
      JoinWf(s, socket, room, user);
      Transition(Join(s, socket, room, user),
                 [Event(ToSelf, "member-joined", MemberPayload(user)),
                  Event(ToOthersInRoom(room), "member-joined", MemberPayload(user))])
  }

  /** The registry after a successful join: the user is added to the room's
      member set, created if needed, and their connection id is recorded. */
  function Join(s: State, socket: SocketId, room: RoomId, user: UserId): State {
    State(Put(s.userToSocket, user, socket),
          Put(s.roomToUsers, room, Add(Members(s, room), user)),
          s.userToTrack)
  }

  /** What a join does to the three maps. */
  lemma JoinFacts(s: State, socket: SocketId, room: RoomId, user: UserId)
    requires user !in Members(s, room)
    ensures var s' := Join(s, socket, room, user);
      && s'.userToTrack == s.userToTrack
      && Members(s', room) == Members(s, room) + [user]
      && HasRoom(s', room)
      && Keys(s'.roomToUsers) == (if HasRoom(s, room) then Keys(s.roomToUsers) else Keys(s.roomToUsers) + [room])
      && (forall r {:trigger Get(s'.roomToUsers, r)} :: r != room ==> Get(s'.roomToUsers, r) == Get(s.roomToUsers, r))
      && Get(s'.userToSocket, user) == Some(socket)
      && (forall u {:trigger Get(s'.userToSocket, u)} :: u != user ==> Get(s'.userToSocket, u) == Get(s.userToSocket, u))
  {
    var s' := Join(s, socket, room, user);
    assert Add(Members(s, room), user) == Members(s, room) + [user];
    assert Members(s', room) == Members(s, room) + [user] by {
      assert Get(s'.roomToUsers, room) == Some(Members(s, room) + [user]);
    }
  }

  /** A join keeps the registry well formed. */
  lemma JoinWf(s: State, socket: SocketId, room: RoomId, user: UserId)
    ensures Wf(s) ==> Wf(Join(s, socket, room, user))
  {
    if Wf(s) {
      MembersNoDup(s, room);
    }
  }

  /** Removes `user` from `room`. After the transport leave, the user leaves
      the member set, the room entry goes away once its set is empty, the
      user's connection id is forgotten, and `self-left` goes to the caller
      and `member-left` to the others, whether or not the user was a member.
      A failed leave changes nothing. */
  function RemoveUserFromRoom(s: State, room: RoomId, user: UserId, leaveOk: bool): (t: Transition)
    ensures t.next.userToTrack == s.userToTrack
    ensures !leaveOk ==> t == NoOp(s)
    ensures leaveOk ==>
      && Members(t.next, room) == Without(Members(s, room), user)
      && (forall u :: u in Members(t.next, room) <==> u in Members(s, room) && u != user)
      && IsSubsequence(Members(t.next, room), Members(s, room))
      && (HasRoom(t.next, room) <==> exists u :: u in Members(s, room) && u != user)
      && (forall r {:trigger Get(t.next.roomToUsers, r)} :: r != room ==> Get(t.next.roomToUsers, r) == Get(s.roomToUsers, r))
      && Get(t.next.userToSocket, user) == None
      && (forall u {:trigger Get(t.next.userToSocket, u)} :: u != user ==> Get(t.next.userToSocket, u) == Get(s.userToSocket, u))
      && t.emitted == [Event(ToSelf, "self-left", SelfLeftPayload(true)),
                       Event(ToOthersInRoom(room), "member-left", MemberPayload(user))]
    ensures Wf(s) ==> Wf(t.next)
  {
    if !leaveOk then NoOp(s)
    else
      var members := Members(s, room);
      WithoutEmpty(members, user);
      var rooms := DropMember(s.roomToUsers, room, user);
      var s' := State(Remove(s.userToSocket, user), rooms, s.userToTrack);
      Transition(s', [Event(ToSelf, "self-left", SelfLeftPayload(true)),
                      Event(ToOthersInRoom(room), "member-left", MemberPayload(user))])
  }

  /** The member-set update of a leave: delete the user, and the room entry
      with them once the set is empty; an unknown room is left alone. */
  function DropMember(rooms: seq<(RoomId, seq<UserId>)>, room: RoomId, user: UserId): seq<(RoomId, seq<UserId>)> {
    match Get(rooms, room)
    case None => rooms
    case Some(members) =>
      var rest := Without(members, user);
      if |rest| == 0 then Remove(rooms, room) else Put(rooms, room, rest)
  }

  /** Deleting `user` empties a member set exactly when no one else is in it. */
  lemma WithoutEmpty(members: seq<UserId>, user: UserId)
    ensures |Without(members, user)| == 0 <==> !exists u :: u in members && u != user
  {
    var rest := Without(members, user);
    if |rest| > 0 {
      assert rest[0] in rest;
    }
  }

  /** Sends the caller the room's members in iteration order. Read-only; an
      unknown room yields an empty list. */
  function GetRoomUsers(s: State, room: RoomId): (t: Transition)
    ensures t.next == s
    ensures |t.emitted| == 1 && t.emitted[0].target == ToSelf && t.emitted[0].name == "room-users"
    ensures t.emitted[0].payload.RoomUsersPayload?
    ensures t.emitted[0].payload.users == Members(s, room)
    ensures forall u :: u in t.emitted[0].payload.users <==> u in Members(s, room)
    ensures !HasRoom(s, room) ==> t.emitted[0].payload.users == []
    ensures Wf(s) ==> NoDup(t.emitted[0].payload.users)
  {
    assert Wf(s) ==> NoDup(Members(s, room)) by {
      if Wf(s) { MembersNoDup(s, room); }
    }
    Transition(s, [Event(ToSelf, "room-users", RoomUsersPayload(Members(s, room)))])
  }
}

=== FILE: wrappers.dfy ===
/** An optional value: the model's stand-in for a JavaScript lookup that may
    yield `undefined`. */
module Wrappers {

  datatype Option<+T> = None | Some(value: T) {

    /** The wrapped value, or `default` when there is none (the `?? default`
        / `|| default` idiom of the source). */
    function GetOr(default: T): T {
      match this
      case Some(v) => v
      case None => default
    }
  }
}
